=== FILE: README.md ===
# Weight tracker: date-range preference layer in Dafny

This project models the client-side logic of a weight-tracking web app that
behaves the same whatever the backend does:

- turning a day count into a date range and back (`src/utils/dateUtils.ts`);
- the date-filter preference kept in per-device storage (`src/utils/storageUtils.ts`);
- the preset and custom choices of the date-range dialog (`src/components/filters/DateRangeFilter.tsx`);
- the calendar grid of weight entries (`src/components/WeightTable.tsx`): weekday
  columns, the click-to-select toggle, the ascending display order and the
  difference badge;
- the BMI reference bands of the chart (`src/components/chart/types.ts`).

A date is an integer count of milliseconds since the Unix epoch. The current
time (`now`) and the local time-zone offset (`offset`, so local time is
`t + offset`) are parameters instead of clock reads. A day is always
86 400 000 ms. The key-value store is a `map<string, Stored>`. A read that
cannot be used (the read throws, the text is empty, `JSON.parse` fails) is the
`Unreadable` value. A write that throws is a `writeFails` flag. The React
handlers are pure functions that return what they pass to the parent's
callbacks.

Modules: `DateUtils`, `StorageUtils`, `DateRangeFilter`, `WeightTable` and
`ChartTypes`, one per source file, and `Wrappers`, a helper that holds the
`Option` type and has no source counterpart.

Day count to range and back does not return every non-zero count. A range
whose start lands exactly on the epoch always reads back as 0 (`dateUtils.ts`
lines 16-18 and 23). So a non-zero count `d` read back at
`now = d · 86 400 000` gives 0 (`DateUtils.DaysRoundTrip`,
`DateUtils.EpochCollision`). The same happens to a custom range that starts on
1 January 1970 UTC.

A custom range can also become all time in a second way. If its start equals its end,
and the start is not the epoch, `dateRangeToDays` gives 0 for the zero span
(`dateUtils.ts` lines 24-25). So the range is saved as 0 and reloads as all
time through `daysToDateRange(0)` (`StorageUtils.EmptyRangeReloadsAllTime`).

## Model

| member | source | states |
|---|---|---|
| DateUtils.MathRound | src/utils/dateUtils.ts:25 | `Math.round` gives the integer `r` with the argument in [r − 0.5, r + 0.5), so halves go up |
| DateUtils.MathRoundUnique | src/utils/dateUtils.ts:25 | that integer is the only one in the window, so the rounding is determined |
| DateUtils.MathRoundOfInteger | src/utils/dateUtils.ts:25 | a whole number rounds to itself |
| DateUtils.DaysToDateRange | src/utils/dateUtils.ts:14-20 | the range always ends now; 0 days is all time (start at the epoch); any other count spans exactly that many days of 86 400 000 ms |
| DateUtils.DateRangeToDays | src/utils/dateUtils.ts:22-26 | an epoch start gives 0 whatever the end; otherwise the result is the span in days rounded to the nearest integer, halves up |
| DateUtils.ExactSpanDays | src/utils/dateUtils.ts:24-25 | a span of exactly k days reads back as k |
| DateUtils.DaysRoundTrip | src/utils/dateUtils.ts:14-26 | range and back gives the original count for every integer count (timestamps unbounded), except a non-zero count whose start lands on the epoch, which gives 0; 0 gives 0 |
| DateUtils.EpochCollision | src/utils/dateUtils.ts:16-23 | a non-zero count reads back as 0 if and only if `now` equals count × day |
| DateUtils.MidnightTimeout | src/utils/dateUtils.ts:28-32 | the wait is positive and at most a day, and it ends on a local midnight that begins the next local day |
| DateUtils.MidnightTimeoutIsNext | src/utils/dateUtils.ts:28-32 | no local midnight lies strictly between now and the end of the wait |
| DateUtils.MidnightTimeoutAtMidnight | src/utils/dateUtils.ts:28-32 | at local midnight exactly, the wait is a full day, not 0 |
| StorageUtils.LoadSavedDateRange | src/utils/storageUtils.ts:9-20 | the loaded range ends now; no entry or an unreadable entry gives all time; a saved count `d` gives the `d`-day range ending now |
| StorageUtils.SaveDateRange | src/utils/storageUtils.ts:22-29 | a successful save stores only the range's day count, under the one key, and leaves other keys alone; a failed save leaves the store unchanged |
| StorageUtils.SaveLoadRoundTrip | src/utils/storageUtils.ts:9-29 | save a `d`-day range, then load it at any later time: the result is the `d`-day range ending at load time, so the old end is dropped (epoch collision aside) |
| StorageUtils.AllTimePersists | src/utils/storageUtils.ts:9-29 | an all-time range is stored as 0 and reloads as all time |
| StorageUtils.LoadSaveStable | src/utils/storageUtils.ts:9-29 | loading a saved count and saving the result leaves the store as it was (epoch collision aside) |
| StorageUtils.EmptyRangeReloadsAllTime | src/utils/storageUtils.ts:9-29 | a zero-length range not starting at the epoch is saved as 0 days and reloads as all time |
| StorageUtils.FailedSaveInvisible | src/utils/storageUtils.ts:22-29 | after a save that throws, a load sees the value stored before the save |
| DateRangeFilter.PresetTable | src/components/filters/DateRangeFilter.tsx:9-15 | the presets are 7, 30, 90, 365 and 0 days in that order, and the last one is "All" |
| DateRangeFilter.PresetsDistinct | src/components/filters/DateRangeFilter.tsx:9-15 | preset labels and day counts are pairwise distinct, and only "All" has count 0 |
| DateRangeFilter.HandlePresetSelect | src/components/filters/DateRangeFilter.tsx:21-24 | choosing a preset reports a range ending now that spans its days (all time for 0), then closes the dialog |
| DateRangeFilter.PresetReadsBack | src/components/filters/DateRangeFilter.tsx:9-24 | the range a preset reports reads back as that preset's day count (epoch collision aside) |
| DateRangeFilter.AllPresetIsAllTime | src/components/filters/DateRangeFilter.tsx:14-24 | "All" reports the range from the epoch to now |
| DateRangeFilter.HandleCustomRange | src/components/filters/DateRangeFilter.tsx:26-31 | a range is reported, and the dialog closed, exactly when both date fields are filled; the range runs from the start field to the end field; otherwise nothing happens |
| DateRangeFilter.CustomMatchesPreset | src/components/filters/DateRangeFilter.tsx:21-31 | a custom range from `now − d` days to now is reported and closes the dialog exactly like the `d`-day preset |
| WeightTable.Weekday | src/components/WeightTable.tsx:30 | `getDay()` lies in 0..6 |
| WeightTable.EpochIsThursday | src/components/WeightTable.tsx:30 | `getDay()` of the epoch instant in UTC is 4 (Thursday) |
| WeightTable.WeekdayNextDay | src/components/WeightTable.tsx:30 | one day later, `getDay()` is the next weekday, wrapping from Saturday (6) to Sunday (0) |
| WeightTable.ColumnOf | src/components/WeightTable.tsx:19-27 | the column table gives every weekday a column in 1..7, equal to `((k + 6) mod 7) + 1`: Sunday goes to 7 and Monday to Saturday go to 1..6 |
| WeightTable.GetColStart | src/components/WeightTable.tsx:29-31 | a date is placed in column 7 exactly when it falls on a Sunday, and otherwise in the column numbered by its weekday |
| WeightTable.ColumnBijection | src/components/WeightTable.tsx:19-27 | the column table is a bijection from 0..6 onto 1..7, inverted by `col mod 7` |
| WeightTable.NextDayColumn | src/components/WeightTable.tsx:19-31 | the next day's column is one to the right, wrapping from 7 back to 1 |
| WeightTable.HandleWeightClick | src/components/WeightTable.tsx:33-42 | clicking the selected date (same timestamp) clears the selection; any other click selects that date; the reported value is the new selection |
| WeightTable.ClickTwiceRestores | src/components/WeightTable.tsx:33-42 | two clicks on one date, starting from nothing selected or from that date, return to the starting state |
| WeightTable.ClickTwiceFromOther | src/components/WeightTable.tsx:33-42 | starting with another date selected, two clicks on a date leave nothing selected |
| WeightTable.Insert | src/components/WeightTable.tsx:57-58 | inserting into a sorted sequence keeps it sorted and adds exactly the new entry |
| WeightTable.SortByDate | src/components/WeightTable.tsx:57-58 | display order is ascending by date and is a permutation of the entries |
| WeightTable.InsertKeepsTies | src/components/WeightTable.tsx:57-58 | an inserted entry goes after the entries that share its date |
| WeightTable.SortIsStable | src/components/WeightTable.tsx:57-58 | entries that share a date keep their input order, as the stable `Array.prototype.sort` does |
| WeightTable.ShownDifference | src/components/WeightTable.tsx:77 | a missing difference is shown as 0; a present one is shown as is |
| WeightTable.IsGain | src/components/WeightTable.tsx:76 | the difference is styled as an error exactly when it is present and positive |
| WeightTable.Layout | src/components/WeightTable.tsx:56-86 | the grid has one cell per entry, in ascending date order, each cell being the sorted entry in its weekday's column |
| ChartTypes.BmiZonesWellFormed | src/components/chart/types.ts:17-22 | four bands named Underweight, Normal, Overweight and Obese in that order, from 0 to 100, each non-empty, each ending where the next starts, all at opacity 0.2 |
| ChartTypes.ZonesPartition | src/components/chart/types.ts:17-22 | in a contiguous band table, every value from the first lower bound up to the last upper bound lies in exactly one band |
| ChartTypes.BmiZonesPartition | src/components/chart/types.ts:17-22 | with each band read as half-open (lower bound in, upper bound out), every BMI in [0, 100) lies in exactly one of the four bands |

## Left out

- `formatDate` and every `toLocaleDateString`/`toFixed` call: their output depends on locale and on float formatting.
- Wall-clock time, time zones and daylight saving: `now` and a fixed `offset` are parameters, and every day is 86 400 000 ms long.
- DateUtils.MidnightTimeout: the wait in (0, one day] is promised for every `now`, but the code keeps to it only for local years 100 and later within the `Date` limit. It fails in three cases:
  - On a day when the local offset changes (DST), the real wait differs by the size of the change.
  - For a local `now` in years 0–99, `new Date(year, month, day + 1)` reads the year as 1900 + year, so the code waits about 1900 years.
  - For a `now` within a day of the +8.64e15 ms `Date` limit, `tomorrow` is an Invalid Date and the wait is `NaN`.
- DateUtils.DateRangeToDays: the division is exact rational arithmetic, not IEEE doubles. The two agree while the quotient stays under about 2^26 days.
- StorageUtils.LoadSavedDateRange: a stored record whose `days` is not an integer is not modelled. Each case behaves differently in the code:
  - a fraction builds a range of fractional length;
  - `{"days":null}` builds the empty range `start == end == now`, because `null === 0` is false and `null` times the day length is 0;
  - a record without `days` builds an invalid (`NaN`) range.
- StorageUtils.SaveDateRange: `saveDateRange` writes `{"days":null}` when `dateRangeToDays` returns `NaN`, because `JSON.stringify` writes `NaN` as `null`. The model's timestamps are always valid, so this write never happens in it.
- The stored text `null` is covered: `JSON.parse` yields `null`, destructuring it throws, and the load falls back to all time. That is the `Unreadable` case.
- DateUtils.DaysToDateRange: a JavaScript `Date` holds only timestamps within ±8.64e15 ms, about 10^8 days. Beyond that, `new Date(...)` is an Invalid Date and `dateRangeToDays` returns `NaN`. The model's timestamps are unbounded integers, so `DateUtils.DaysRoundTrip` and the storage round trips hold in the model only where both `now` and the computed start are within that limit in the code.
- Parsing of the custom date fields (`new Date("yyyy-mm-dd")`): a field is either empty or already the timestamp it parses to.
- The dialog's field state is not modelled.
- The disabled Apply button is not modelled, because it only repeats the guard of `handleCustomRange`.
- The date inputs' `min`/`max` attributes are not modelled. They make the date picker offer only start ≤ end ≤ today. `handleCustomRange` does not check that order, so a date typed outside those bounds still reaches `onSelect`, and `DateRangeFilter.HandleCustomRange` accepts any two timestamps.
- WeightTable.Layout: every entry is taken to have a valid timestamp. An entry whose date is an Invalid Date is not modelled. The one visible caller, `WeightList.tsx`, builds such dates from a missing `created_at` field. For such an entry, `toISOString()` in the cell key throws a `RangeError`, so the grid does not render. Also, `getDay()` gives `NaN`, so `getColStart` returns `undefined`.
- The selected-cell highlight compares `Date` objects by identity (`===`). Values have no identity in the model, so the highlight is not modelled.
- `console.error` logging in the storage functions. The optional-call form `onWeightSelect?.(…)` is modelled as the value that would be passed.
- Backend services, auth and profile pages, the weight entry and edit forms, the theme colours, routing and the presentational components: they are remote calls, form plumbing or layout.

=== FILE: chart_types.dfy ===
/** The BMI reference bands drawn behind the chart. Bounds are exact
    rationals (`real`), so the decimal literals of the table are compared
    exactly. */
module ChartTypes {
  import opened Wrappers

  /** One shaded band from `bmi1` up to `bmi2`; `name` holds the `label` of a
      `BMI_ZONES` entry (`label` is a Dafny keyword). */
  datatype BmiZone = BmiZone(bmi1: real, bmi2: real, fill: string, opacity: real, name: string)

  /** `BMI_ZONES`. */
  const BmiZones: seq<BmiZone> := [
    BmiZone(0.0, 18.5, "#90caf9", 0.2, "Underweight"),
    BmiZone(18.5, 24.9, "#81c784", 0.2, "Normal"),
    BmiZone(24.9, 29.9, "#fff176", 0.2, "Overweight"),
    BmiZone(29.9, 100.0, "#ef9a9a", 0.2, "Obese")
  ]

  /** Whether a band covers a BMI value, reading each band as half-open: lower
      bound in, upper bound out. The chart itself draws closed areas, so a
      shared bound such as 18.5 lies on two drawn bands; "exactly one band"
      below holds under this half-open reading. */
  predicate Covers(z: BmiZone, x: real) {
    z.bmi1 <= x < z.bmi2
  }

  /** A band table is well formed when it is non-empty, every band is
      non-empty, and each band ends where the next begins. */
  predicate Contiguous(zs: seq<BmiZone>) {
    && |zs| > 0
    && (forall i :: 0 <= i < |zs| ==> zs[i].bmi1 < zs[i].bmi2)
    && (forall i :: 0 <= i < |zs| - 1 ==> zs[i].bmi2 == zs[i + 1].bmi1)
  }

  /** The first band covering `x`, if any. */
  function ZoneIndex(zs: seq<BmiZone>, x: real): (r: Option<nat>)
    ensures r.Some? ==> r.value < |zs| && Covers(zs[r.value], x)
    ensures r.Some? ==> forall i :: 0 <= i < r.value ==> !Covers(zs[i], x)
    ensures r.None? ==> forall i :: 0 <= i < |zs| ==> !Covers(zs[i], x)
  {
    if |zs| == 0 then None
    else if Covers(zs[0], x) then Some(0)
    else
      match ZoneIndex(zs[1..], x)
      case None => None
      case Some(k) => Some(k + 1)
  }

  /** In a contiguous table an earlier band ends no later than a later one begins. */
  lemma {:induction false} ContiguousOrdered(zs: seq<BmiZone>, i: int, j: int)
    requires Contiguous(zs)
    requires 0 <= i < j < |zs|
    ensures zs[i].bmi2 <= zs[j].bmi1
  {
    if j > i + 1 {
      ContiguousOrdered(zs, i, j - 1);
    }
  }

  /** A contiguous table covers every value from its first lower bound up to
      its last upper bound. */
  lemma {:induction false} ContiguousCovers(zs: seq<BmiZone>, x: real)
    requires Contiguous(zs)
    requires zs[0].bmi1 <= x < zs[|zs| - 1].bmi2
    ensures ZoneIndex(zs, x).Some?
  {
    if !Covers(zs[0], x) {
      var tail := zs[1..];
      assert |zs| > 1;
      assert Contiguous(tail);
      ContiguousCovers(tail, x);
    }
  }

  /** In a contiguous table every value in the covered span lies in exactly
      one band. */
  lemma ZonesPartition(zs: seq<BmiZone>, x: real)
    requires Contiguous(zs)
    requires zs[0].bmi1 <= x < zs[|zs| - 1].bmi2
    ensures ZoneIndex(zs, x).Some?
    ensures forall i :: 0 <= i < |zs| && Covers(zs[i], x) ==> i == ZoneIndex(zs, x).value
  {
    ContiguousCovers(zs, x);
    var k := ZoneIndex(zs, x).value;
    forall i | 0 <= i < |zs| && Covers(zs[i], x)
      ensures i == k
    {
      if i < k {
        ContiguousOrdered(zs, i, k);
      } else if k < i {
        ContiguousOrdered(zs, k, i);
      }
    }
  }

  /** The table has four bands named Underweight, Normal, Overweight and
      Obese in that order, spans 0 to 100, is contiguous with non-empty
      bands, and shades every band at opacity 0.2. */
  lemma BmiZonesWellFormed()
    ensures |BmiZones| == 4
    ensures BmiZones[0].name == "Underweight" && BmiZones[1].name == "Normal"
    ensures BmiZones[2].name == "Overweight" && BmiZones[3].name == "Obese"
    ensures BmiZones[0].bmi1 == 0.0 && BmiZones[3].bmi2 == 100.0
    ensures Contiguous(BmiZones)
    ensures forall i :: 0 <= i < |BmiZones| ==> BmiZones[i].opacity == 0.2
  {
  }

  /** Every BMI from 0 up to (not including) 100 is shaded by exactly one band. */
  lemma BmiZonesPartition(x: real)
    requires 0.0 <= x < 100.0
    ensures ZoneIndex(BmiZones, x).Some?
    ensures forall i :: 0 <= i < |BmiZones| && Covers(BmiZones[i], x) ==> i == ZoneIndex(BmiZones, x).value
  {
    BmiZonesWellFormed();
    ZonesPartition(BmiZones, x);
  }
}

=== FILE: date_range_filter.dfy ===
/** The date-range dialog: a fixed table of preset windows and a custom
    window from two date fields. Its two handlers are modelled as pure
    functions returning what they report to the parent component. */
module DateRangeFilter {
  import opened Wrappers
  import opened DateUtils

  /** One preset button: its day count (0 is all time) and its `name`, which
      holds the `label` of a `PRESET_RANGES` entry (`label` is a Dafny keyword). */
  datatype Preset = Preset(name: string, days: int)

  /** `PRESET_RANGES`, in display order. */
  const PresetRanges: seq<Preset> := [
    Preset("7 Days", 7),
    Preset("1 Month", 30),
    Preset("3 Months", 90),
    Preset("1 Year", 365),
    Preset("All", 0)
  ]

  /** What a handler does to its parent: the range passed to `onSelect`, if
      it was called, and whether `onClose` was called after it. */
  datatype Reported = Reported(selected: Option<DateRange>, closed: bool)

  /** `handlePresetSelect`: report the preset's window ending now, then close. */
  function HandlePresetSelect(days: int, now: int): (r: Reported)
    ensures r.closed && r.selected.Some?
    ensures r.selected.value.end == now
    ensures days == 0 ==> r.selected.value.start == Epoch
    ensures days != 0 ==> r.selected.value.end - r.selected.value.start == days * DayMs
  {
    Reported(Some(DaysToDateRange(days, now)), true)
  }

  /** `handleCustomRange`. A date field is `None` while its text is empty and
      otherwise holds the timestamp `new Date(text)` gives for it. A range
      from start to end is reported and the dialog closed only when both
      fields are filled; otherwise nothing happens. */
  function HandleCustomRange(startDate: Option<int>, endDate: Option<int>): (r: Reported)
    ensures r.closed <==> startDate.Some? && endDate.Some?
    ensures r.selected.Some? <==> r.closed
    ensures r.selected.Some? ==> r.selected.value == DateRange(startDate.value, endDate.value)
  {
    if startDate.Some? && endDate.Some? then
      Reported(Some(DateRange(startDate.value, endDate.value)), true)
    else
      Reported(None, false)
  }

  /** A custom range ending now and starting a whole number of days earlier
      is the very range the preset of that many days reports, and both close
      the dialog. */
  lemma CustomMatchesPreset(days: int, now: int)
    requires days != 0
    ensures HandleCustomRange(Some(now - days * DayMs), Some(now)) == HandlePresetSelect(days, now)
  {
  }

  /** The preset table holds 7, 30, 90, 365 and 0 days in that order, the
      last labelled "All". */
  lemma PresetTable()
    ensures |PresetRanges| == 5
    ensures PresetRanges[0].days == 7 && PresetRanges[1].days == 30 && PresetRanges[2].days == 90
    ensures PresetRanges[3].days == 365 && PresetRanges[4].days == 0
    ensures PresetRanges[4].name == "All"
  {
  }

  /** The names serve as list keys, so they must be distinct; so are the
      day counts, and only "All" has count 0. */
  lemma PresetsDistinct()
    ensures forall i, j :: 0 <= i < j < |PresetRanges| ==>
      PresetRanges[i].name != PresetRanges[j].name && PresetRanges[i].days != PresetRanges[j].days
    ensures forall i :: 0 <= i < |PresetRanges| && PresetRanges[i].days == 0 ==> PresetRanges[i].name == "All"
  {
  }

  /** Every preset button reports a window that reads back as its own day
      count whenever the start does not land on the epoch, and "All" reports
      all time. */
  lemma PresetReadsBack(i: int, now: int)
    requires 0 <= i < |PresetRanges|
    requires PresetRanges[i].days == 0 || now != PresetRanges[i].days * DayMs
    ensures HandlePresetSelect(PresetRanges[i].days, now).selected.Some?
    ensures DateRangeToDays(HandlePresetSelect(PresetRanges[i].days, now).selected.value) == PresetRanges[i].days
  {
    DaysRoundTrip(PresetRanges[i].days, now);
  }

  /** Choosing "All" reports a range that starts at the epoch. */
  lemma AllPresetIsAllTime(now: int)
    ensures HandlePresetSelect(PresetRanges[4].days, now).selected == Some(AllTime(now))
  {
  }
}

=== FILE: date_utils.dfy ===
/** Day-count and date-range arithmetic. A date is its timestamp: whole
    milliseconds since the Unix epoch. The current time and the local
    time-zone offset are passed in rather than read from a clock. */
module DateUtils {

  /** Milliseconds in one day; `dateUtils.ts` writes it as `24 * 60 * 60 * 1000`. */
  const DayMs: int := 24 * 60 * 60 * 1000

  /** The timestamp of `new Date(0)`, which the range logic reads as "all time". */
  const Epoch: int := 0

  /** A time window from `start` to `end`. */
  datatype DateRange = DateRange(start: int, end: int)

  /** The range `{start: new Date(0), end: now}`. */
  function AllTime(now: int): DateRange {
    DateRange(Epoch, now)
  }

  /** JavaScript's `Math.round` on an exact rational: the nearest integer,
      with halves going toward positive infinity. */
  function MathRound(x: real): (r: int)
    ensures r as real - 0.5 <= x < r as real + 0.5
  {
    (x + 0.5).Floor
  }

  /** Only one integer lies in the half-open window `[x - 0.5, x + 0.5)`,
      so `MathRound` is the rounding and not merely a rounding. */
  lemma MathRoundUnique(x: real, k: int)
    requires k as real - 0.5 <= x < k as real + 0.5
    ensures MathRound(x) == k
  {
    var r := MathRound(x);
    assert r as real - 1.0 < k as real < r as real + 1.0;
  }

  /** A whole number rounds to itself. */
  lemma MathRoundOfInteger(k: int)
    ensures MathRound(k as real) == k
  {
    MathRoundUnique(k as real, k);
  }

  /** `daysToDateRange`: the window of the last `days` days ending now,
      with 0 standing for all time. */
  function DaysToDateRange(days: int, now: int): (r: DateRange)
    ensures r.end == now
    ensures days == 0 ==> r == AllTime(now)
    ensures days != 0 ==> r.end - r.start == days * DayMs
  {
    var end := now;
    var start := if days == 0 then Epoch else end - days * DayMs;
    DateRange(start, end)
  }

  /** `dateRangeToDays`: the length of a range in whole days, rounded as
      `Math.round` rounds; a range starting at the epoch is all time. */
  function DateRangeToDays(range: DateRange): (r: int)
    ensures range.start == Epoch ==> r == 0
    ensures range.start != Epoch ==>
      (r as real - 0.5) * DayMs as real <= (range.end - range.start) as real < (r as real + 0.5) * DayMs as real
  {
    if range.start == Epoch then 0
    else
      var diffTime := range.end - range.start;
      var q := diffTime as real / DayMs as real;
      var r := MathRound(q);
      assert (r as real - 0.5) * DayMs as real <= q * DayMs as real < (r as real + 0.5) * DayMs as real;
      r
  }

  /** A span that is an exact number of days reads back as that number. */
  lemma ExactSpanDays(range: DateRange, k: int)
    requires range.start != Epoch
    requires range.end - range.start == k * DayMs
    ensures DateRangeToDays(range) == k
  {
    var q := (range.end - range.start) as real / DayMs as real;
    assert q == k as real;
    MathRoundOfInteger(k);
  }

  /** Day count to range and back: the count survives, except that a start
      computed to land exactly on the epoch is read back as "all time". */
  lemma DaysRoundTrip(days: int, now: int)
    ensures DateRangeToDays(DaysToDateRange(days, now)) ==
      (if days != 0 && now == days * DayMs then 0 else days)
  {
    var range := DaysToDateRange(days, now);
    if days != 0 && range.start != Epoch {
      ExactSpanDays(range, days);
    }
  }

  /** The epoch collision really happens: a non-zero count whose window
      would begin exactly at the epoch reads back as 0, and only then. */
  lemma EpochCollision(days: int, now: int)
    requires days != 0
    ensures DateRangeToDays(DaysToDateRange(days, now)) == 0 <==> now == days * DayMs
  {
    DaysRoundTrip(days, now);
  }

  /** The local wall-clock day a timestamp falls in, counted from the epoch
      day, for a zone whose local time is `now + offset`. */
  function LocalDay(t: int, offset: int): int {
    (t + offset) / DayMs
  }

  /** `getMidnightTimeout`: milliseconds from `now` until the start of the
      next local day (the `Date` for tomorrow at 00:00 local time). */
  function MidnightTimeout(now: int, offset: int): (r: int)
    ensures 0 < r <= DayMs
    ensures (now + r + offset) % DayMs == 0
    ensures LocalDay(now + r, offset) == LocalDay(now, offset) + 1
  {
    var tomorrow := (LocalDay(now, offset) + 1) * DayMs - offset;
    tomorrow - now
  }

  /** No local midnight falls strictly between `now` and the timeout, so
      the timer fires at the first one. */
  lemma MidnightTimeoutIsNext(now: int, offset: int, t: int)
    requires 0 < t < MidnightTimeout(now, offset)
    ensures (now + t + offset) % DayMs != 0
    ensures LocalDay(now + t, offset) == LocalDay(now, offset)
  {
  }

  /** At local midnight exactly, the wait is a full day, never zero. */
  lemma MidnightTimeoutAtMidnight(now: int, offset: int)
    requires (now + offset) % DayMs == 0
    ensures MidnightTimeout(now, offset) == DayMs
  {
  }
}

=== FILE: storage_utils.dfy ===
/** The persisted date-filter preference. Only the day count is stored, under
    one key of the per-device key-value store; loading rebuilds a range
    around the time of loading. */
module StorageUtils {
  import opened DateUtils

  /** The key the preference is stored under. */
  const StorageKey: string := "weight-chart-filter"

  /** What reading a slot of the store yields: a stored `{days}` record, or
      something that cannot be read back as one (the read throws, the text
      is empty, or `JSON.parse` fails). */
  datatype Stored = Filter(days: int) | Unreadable

  /** The per-device key-value store. A key that is absent has no entry. */
  type Store = map<string, Stored>

  /** `loadSavedDateRange`: the saved preference as a range ending at
      `now`, or all time when there is nothing usable saved. */
  function LoadSavedDateRange(store: Store, now: int): (r: DateRange)
    ensures r.end == now
    ensures StorageKey !in store ==> r == AllTime(now)
    ensures StorageKey in store && store[StorageKey].Unreadable? ==> r == AllTime(now)
    ensures StorageKey in store && store[StorageKey].Filter? ==>
      r == DaysToDateRange(store[StorageKey].days, now)
  {
    if StorageKey !in store then DateRange(Epoch, now)
    else
      match store[StorageKey]
      case Unreadable => DateRange(Epoch, now)
      case Filter(days) => DaysToDateRange(days, now)
  }

  /** `saveDateRange`: store the range's day count under the key. When the
      write throws (`writeFails`, say the quota is exceeded) the error is
      swallowed and the store keeps what it had. */
  function SaveDateRange(store: Store, range: DateRange, writeFails: bool): (r: Store)
    ensures writeFails ==> r == store
    ensures !writeFails ==> StorageKey in r && r[StorageKey] == Filter(DateRangeToDays(range))
    ensures !writeFails ==> r.Keys == store.Keys + {StorageKey}
    ensures forall k :: k in store && k != StorageKey ==> k in r && r[k] == store[k]
  {
    if writeFails then store
    else store[StorageKey := Filter(DateRangeToDays(range))]
  }

  /** Saving a preset range and loading it later, at any time, gives the
      preset's window ending at the later time: the count survives and the
      old end does not, except for the epoch collision of the round trip. */
  lemma SaveLoadRoundTrip(store: Store, days: int, savedAt: int, loadedAt: int)
    ensures LoadSavedDateRange(SaveDateRange(store, DaysToDateRange(days, savedAt), false), loadedAt) ==
      DaysToDateRange(if days != 0 && savedAt == days * DayMs then 0 else days, loadedAt)
  {
    DaysRoundTrip(days, savedAt);
  }

  /** An all-time range persists as 0 and reloads as all time. */
  lemma AllTimePersists(store: Store, savedAt: int, loadedAt: int)
    ensures SaveDateRange(store, AllTime(savedAt), false)[StorageKey] == Filter(0)
    ensures LoadSavedDateRange(SaveDateRange(store, AllTime(savedAt), false), loadedAt) == AllTime(loadedAt)
  {
  }

  /** Loading and saving straight back leaves a saved preference as it was,
      unless the saved count puts the window's start exactly on the epoch. */
  lemma LoadSaveStable(store: Store, now: int)
    requires StorageKey in store && store[StorageKey].Filter?
    requires store[StorageKey].days == 0 || now != store[StorageKey].days * DayMs
    ensures SaveDateRange(store, LoadSavedDateRange(store, now), false) == store
  {
    DaysRoundTrip(store[StorageKey].days, now);
  }

  /** A range of zero length that does not start at the epoch (a custom range
      whose start and end fields hold the same date, say) reads as 0 days,
      so once saved it reloads as all time. */
  lemma EmptyRangeReloadsAllTime(store: Store, range: DateRange, loadedAt: int)
    requires range.start != Epoch && range.start == range.end
    ensures LoadSavedDateRange(SaveDateRange(store, range, false), loadedAt) == AllTime(loadedAt)
  {
    ExactSpanDays(range, 0);
  }

  /** A failed save followed by a load sees whatever was stored before. */
  lemma FailedSaveInvisible(store: Store, range: DateRange, now: int)
    ensures LoadSavedDateRange(SaveDateRange(store, range, true), now) == LoadSavedDateRange(store, now)
  {
  }
}

=== FILE: weight_table.dfy ===
/** The calendar grid of weight entries: entries sorted by date, each placed
    in the Monday-first column of its weekday, with a click toggling which
    date is selected. */
module WeightTable {
  import opened Wrappers
  import opened DateUtils

  /** One entry as the table receives it; `difference` may be missing. */
  datatype Entry = Entry(date: int, weight: real, difference: Option<real>)

  // ---------------------------------------------------------------------
  // Weekday and grid column
  // ---------------------------------------------------------------------

  /** `Date.getDay()` in a zone whose local time is `t + offset`: 0 is
      Sunday, 6 is Saturday. The epoch day, 1 January 1970, was a Thursday. */
  function Weekday(t: int, offset: int): (r: int)
    ensures 0 <= r < 7
  {
    (LocalDay(t, offset) + 4) % 7
  }

  /** The epoch instant falls on a Thursday in UTC. */
  lemma EpochIsThursday()
    ensures Weekday(Epoch, 0) == 4
  {
  }

  /** One day later is the next weekday, Saturday wrapping to Sunday. */
  lemma WeekdayNextDay(t: int, offset: int)
    ensures Weekday(t + DayMs, offset) == (Weekday(t, offset) + 1) % 7
  {
    assert LocalDay(t + DayMs, offset) == LocalDay(t, offset) + 1;
  }

  /** `colStartClasses`: the grid column (the `n` of `col-start-n`) for each
      `getDay()` value, so that Monday is column 1 and Sunday column 7. */
  const ColStartClasses: map<int, int> := map[0 := 7, 1 := 1, 2 := 2, 3 := 3, 4 := 4, 5 := 5, 6 := 6]

  /** The column of a weekday; every weekday has one, in 1..7. */
  function ColumnOf(weekday: int): (col: int)
    requires 0 <= weekday < 7
    ensures 1 <= col <= 7
    ensures col == (weekday + 6) % 7 + 1
  {
    ColStartClasses[weekday]
  }

  /** `getColStart`: the column a date is placed in. */
  function GetColStart(t: int, offset: int): (col: int)
    ensures 1 <= col <= 7
    ensures col == 7 <==> Weekday(t, offset) == 0
    ensures Weekday(t, offset) != 0 ==> col == Weekday(t, offset)
  {
    ColumnOf(Weekday(t, offset))
  }

  /** The weekday shown in a column: the inverse of `ColumnOf`. */
  function WeekdayOfColumn(col: int): (weekday: int)
    requires 1 <= col <= 7
    ensures 0 <= weekday < 7
  {
    col % 7
  }

  /** `ColumnOf` is a bijection from 0..6 onto 1..7, with `WeekdayOfColumn`
      as its inverse on both sides. */
  lemma ColumnBijection(weekday: int, col: int)
    requires 0 <= weekday < 7 && 1 <= col <= 7
    ensures WeekdayOfColumn(ColumnOf(weekday)) == weekday
    ensures ColumnOf(WeekdayOfColumn(col)) == col
    ensures ColumnOf(weekday) == col <==> weekday == WeekdayOfColumn(col)
  {
  }

  /** The day after a date sits one column to the right, wrapping from
      Sunday (column 7) back to Monday (column 1). */
  lemma NextDayColumn(t: int, offset: int)
    ensures GetColStart(t + DayMs, offset) == if GetColStart(t, offset) == 7 then 1 else GetColStart(t, offset) + 1
  {
    assert LocalDay(t + DayMs, offset) == LocalDay(t, offset) + 1;
  }

  // ---------------------------------------------------------------------
  // Selection toggle
  // ---------------------------------------------------------------------

  /** The selection after a click and the value passed to `onWeightSelect`. */
  datatype Click = Click(selected: Option<int>, reported: Option<int>)

  /** `handleWeightClick`: clicking the selected date clears the selection;
      clicking any other date, or clicking with nothing selected, selects it.
      Dates are compared by timestamp, and the new selection is reported. */
  function HandleWeightClick(selected: Option<int>, date: int): (r: Click)
    ensures r.reported == r.selected
    ensures r.selected.None? <==> selected == Some(date)
    ensures r.selected.Some? ==> r.selected.value == date
  {
    if selected.Some? && selected.value == date then Click(None, None)
    else Click(Some(date), Some(date))
  }

  /** Clicking one date twice, from nothing selected or from that date
      selected, returns to where it started. */
  lemma ClickTwiceRestores(selected: Option<int>, date: int)
    requires selected == None || selected == Some(date)
    ensures HandleWeightClick(HandleWeightClick(selected, date).selected, date).selected == selected
  {
  }

  /** From another date selected, two clicks on a date leave nothing selected. */
  lemma ClickTwiceFromOther(other: int, date: int)
    requires other != date
    ensures HandleWeightClick(HandleWeightClick(Some(other), date).selected, date).selected == None
  {
  }

  // ---------------------------------------------------------------------
  // Display order: a stable ascending sort on a copy
  // ---------------------------------------------------------------------

  predicate SortedByDate(s: seq<Entry>) {
    forall i, j :: 0 <= i < j < |s| ==> s[i].date <= s[j].date
  }

  /** The entries of `s` dated `t`, in the order they appear in `s`. */
  function WithDate(s: seq<Entry>, t: int): seq<Entry> {
    if |s| == 0 then []
    else WithDate(s[..|s| - 1], t) + (if s[|s| - 1].date == t then [s[|s| - 1]] else [])
  }

  /** A sorted sequence stays sorted when an entry no earlier than its last
      one is appended. */
  lemma SortedSnoc(s: seq<Entry>, y: Entry)
    requires SortedByDate(s)
    requires |s| == 0 || s[|s| - 1].date <= y.date
    ensures SortedByDate(s + [y])
  {
  }

  /** Insert `x` into a sorted sequence after every entry not later than it. */
  function Insert(s: seq<Entry>, x: Entry): (r: seq<Entry>)
    requires SortedByDate(s)
    ensures SortedByDate(r)
    ensures multiset(r) == multiset(s) + multiset{x}
    ensures |r| > 0 && (r[|r| - 1] == x || (|s| > 0 && r[|r| - 1] == s[|s| - 1]))
  {
    if |s| == 0 || s[|s| - 1].date <= x.date then
      SortedSnoc(s, x);
      s + [x]
    else
      var init, last := s[..|s| - 1], s[|s| - 1];
      assert s == init + [last];
      var rest := Insert(init, x);
      SortedSnoc(rest, last);
      rest + [last]
  }

  /** `[...weights].sort((a, b) => a.date - b.date)`: the entries in
      ascending date order; the input sequence is a value and stays as it was. */
  function SortByDate(s: seq<Entry>): (r: seq<Entry>)
    ensures SortedByDate(r)
    ensures multiset(r) == multiset(s)
  {
    if |s| == 0 then []
    else
      assert s == s[..|s| - 1] + [s[|s| - 1]];
      Insert(SortByDate(s[..|s| - 1]), s[|s| - 1])
  }

  /** Appending one entry extends the entries of its date by it. */
  lemma WithDateSnoc(s: seq<Entry>, y: Entry, t: int)
    ensures WithDate(s + [y], t) == WithDate(s, t) + (if y.date == t then [y] else [])
  {
    assert (s + [y])[..|s|] == s;
  }

  /** Inserting `x` adds it after the entries of its own date. */
  lemma {:induction false} InsertKeepsTies(s: seq<Entry>, x: Entry, t: int)
    requires SortedByDate(s)
    ensures WithDate(Insert(s, x), t) == WithDate(s, t) + (if x.date == t then [x] else [])
  {
    if |s| == 0 || s[|s| - 1].date <= x.date {
      WithDateSnoc(s, x, t);
    } else {
      var init, last := s[..|s| - 1], s[|s| - 1];
      var rest := Insert(init, x);
      assert Insert(s, x) == rest + [last];
      assert s == init + [last];
      InsertKeepsTies(init, x, t);
      WithDateSnoc(rest, last, t);
      WithDateSnoc(init, last, t);
      if x.date == t {
        assert WithDate(rest + [last], t) == WithDate(init, t) + [x];
        assert WithDate(s, t) == WithDate(init, t);
      } else {
        assert WithDate(rest, t) == WithDate(init, t);
      }
    }
  }

  /** The sort is stable: entries sharing a date keep their input order. */
  lemma {:induction false} SortIsStable(s: seq<Entry>, t: int)
    ensures WithDate(SortByDate(s), t) == WithDate(s, t)
  {
    if |s| > 0 {
      SortIsStable(s[..|s| - 1], t);
      InsertKeepsTies(SortByDate(s[..|s| - 1]), s[|s| - 1], t);
    }
  }

  // ---------------------------------------------------------------------
  // Difference badge and the rendered grid
  // ---------------------------------------------------------------------

  /** `weight.difference ?? 0`: the difference shown, 0 when missing. */
  function ShownDifference(difference: Option<real>): (d: real)
    ensures difference.None? ==> d == 0.0
    ensures difference.Some? ==> d == difference.value
  {
    difference.GetOr(0.0)
  }

  /** Whether the difference is styled as an error (a gain): exactly when a
      difference is present and positive. */
  function IsGain(difference: Option<real>): (gain: bool)
    ensures gain <==> difference.Some? && difference.value > 0.0
  {
    ShownDifference(difference) > 0.0
  }

  /** One rendered grid cell. */
  datatype Cell = Cell(date: int, column: int, weight: real, difference: real, gain: bool)

  function CellOf(e: Entry, offset: int): Cell {
    Cell(e.date, GetColStart(e.date, offset), e.weight, ShownDifference(e.difference), IsGain(e.difference))
  }

  /** The grid: one cell per entry, in ascending date order, each in the
      column of its weekday. No entries give no cells (the component then
      shows a "No weights recorded" placeholder). */
  function Layout(weights: seq<Entry>, offset: int): (cells: seq<Cell>)
    ensures |cells| == |weights|
    ensures forall i, j :: 0 <= i < j < |cells| ==> cells[i].date <= cells[j].date
    ensures forall i :: 0 <= i < |cells| ==> 1 <= cells[i].column <= 7 && cells[i].column == GetColStart(cells[i].date, offset)
    ensures forall i :: 0 <= i < |cells| ==> cells[i] == CellOf(SortByDate(weights)[i], offset)
  {
    var sorted := SortByDate(weights);
    assert |sorted| == |multiset(sorted)| == |multiset(weights)| == |weights|;
    seq(|sorted|, i requires 0 <= i < |sorted| => CellOf(sorted[i], offset))
  }
}

=== FILE: wrappers.dfy ===
/** A value that may be absent: the `null` of a selected date, the empty
    text of a date field, an `undefined` weight difference. */
module Wrappers {

  datatype Option<T> = None | Some(value: T) {

    /** The value held, with `fallback` standing in for an absent one; the
        model of JavaScript's `x ?? fallback`. */
    function GetOr(fallback: T): T {
      if Some? then value else fallback
    }
  }
}
